=== FILE: README.md ===
# Work pool and linear retry, modelled in Dafny

This project models two pieces of Teleport's `lib/utils` package.

**The work pool** (`lib/utils/workpool/workpool.go`) hands out leases, each
one admitting a unit of work for a key. A pool keeps one group per key. Each
group has a target and an active count. The group's controller loop offers
leases while active is below target. Releasing a lease lowers active again.
The model turns every operation into one atomic transition over an immutable
`Pool` value. The pool value holds:

- the registry of keys;
- every group ever started, indexed by its identity;
- the shared lease-id counter;
- every lease handed out, with its release-once flag;
- the stopped flag.

A group stays in the pool after it is deleted from the registry. A lease of a
deleted group therefore still lowers that old group's count, and never the
count of a newer group with the same key. One iteration of the controller
loop is `RunStep`. The `Wakeup` parameter says which case of the loop's
select fires: a waiting receiver takes the lease, a wake is consumed, or the
context is done.

**The linear retry** (`lib/utils/retry.go`) covers three things: the
configuration check, the attempt counter, and the delay. The delay is a
clamped arithmetic progression of `time.Duration` values, with optional
jitter. The random draw of the jitter is a parameter.

Files:

- `optional.dfy`: the `Option` type.
- `workpool.dfy`: module `WorkPool`, with the state and the operations.
- `workpool_proofs.dfy`: module `WorkPoolProofs`, with the pool invariant,
  its preservation by every operation and by operation sequences, and the
  lease properties.
- `retry.dfy`: module `Retry`, with the operations and their lemmas.

The pool invariant `WorkPoolProofs.Inv` has three parts:

- the registry and the leases are well-formed;
- every group's active count equals the number of its unreleased leases;
- every lease id, granted or pending as a candidate, lies in `1..leaseIds`
  and is used only once.

## Model

| member | source | states |
|---|---|---|
| WorkPool.NewPool | lib/utils/workpool/workpool.go:68-77 | a new pool has no groups, no leases, a zero id counter and is not stopped |
| WorkPool.Get | lib/utils/workpool/workpool.go:86-94 | a key without a group reports `{0,0}`; otherwise the counts of the group the registry names |
| WorkPool.Start | lib/utils/workpool/workpool.go:113-132 | a new group for the key reports `{target,0}` and is registered under the next identity; its loop is running (not exited, not cancelled, no pending wake or candidate); every other key reports what it did before; existing groups and leases are untouched |
| WorkPool.Del | lib/utils/workpool/workpool.go:134-142 | reports true iff the key had a group; that group is cancelled and unregistered and otherwise unchanged; every other group, deleted ones included, is unchanged; with no group, nothing changes |
| WorkPool.Set | lib/utils/workpool/workpool.go:96-111 | below one: the call is `Del`, so the key is unregistered, its group cancelled (it grants no more), the key reports `{0,0}`, and an absent key leaves the pool unchanged; for an existing key, only that group's target changes (registry and every other group, deleted ones included, unchanged); for an absent key, the call is `Start`, so a running group with `{t,0}` is created; otherwise the target becomes `t`, active is kept; other keys unchanged; no lease granted |
| WorkPool.Stop | lib/utils/workpool/workpool.go:144-147 | after a stop every group, old or new, counts as cancelled; registry, groups, counter and leases are unchanged |
| WorkPool.IncrActive | lib/utils/workpool/workpool.go:189-197 | active rises by one with uint64 wrap-around, the group is left notified, nothing else changes |
| WorkPool.DecrActive | lib/utils/workpool/workpool.go:199-207 | active drops by one with uint64 wrap-around, the group is left notified, nothing else changes |
| WorkPool.SetTarget | lib/utils/workpool/workpool.go:209-216 | counts become `{target, old active}`, the group is left notified |
| WorkPool.Prepare | lib/utils/workpool/workpool.go:223-239 | in the granting state a candidate exists afterwards; a pending candidate is reused, and a new one takes the next counter value; otherwise nothing changes |
| WorkPool.RunStep | lib/utils/workpool/workpool.go:218-249 | a grant fires exactly when the group's loop is running, the group is not cancelled and active < target; a wake is consumed exactly when one is pending, and the loop ends exactly when the context is done, after which nothing fires; it leaves the target (and everything else of the group but active, wake and candidate) unchanged and raises active by exactly one, so active stays within that same target; it appends one unreleased lease with the candidate's id (or the next id); other cases grant nothing and keep all counts; a stopped pool grants nothing |
| WorkPool.RunStepAsWritten | lib/utils/workpool/workpool.go:240-247 | the loop as written: a grant fires whenever the loop is running and active < target, cancelled or not; it agrees with the corrected step on every uncancelled group and every non-grant case |
| WorkPool.Fire | lib/utils/workpool/workpool.go:240-247 | a taken lease is appended unreleased with the candidate's id and the group's active is raised by one with the candidate cleared; a wake case only clears the pending wake, a done case only ends the loop |
| WorkPool.Release | lib/utils/workpool/workpool.go:265-269 | a released lease changes nothing; the first release marks the lease released and lowers only its own group's count |
| WorkPool.NOPLease | lib/utils/workpool/workpool.go:275-282 | the detached lease carries the given key |
| WorkPool.LeaseID | lib/utils/workpool/workpool.go:257-286 | a pooled lease reports the id it was granted with; a detached lease has id 0 |
| WorkPool.LeaseKey | lib/utils/workpool/workpool.go:261-290 | a pooled lease reports the key of the group that granted it; a detached lease reports its own key |
| WorkPool.ReleaseLease | lib/utils/workpool/workpool.go:265-292 | releasing a pooled lease is `Release` of that lease; releasing a detached lease changes nothing |
| WorkPoolProofs.IncrDecrInverse | lib/utils/workpool/workpool.go:191-207 | raising then lowering active, or the reverse, restores the counts, even across the wrap-around |
| WorkPoolProofs.NewPoolInv | lib/utils/workpool/workpool.go:68-77 | a new pool satisfies the invariant |
| WorkPoolProofs.StartPreservesInv | lib/utils/workpool/workpool.go:115-132 | starting a group keeps the invariant |
| WorkPoolProofs.DelPreservesInv | lib/utils/workpool/workpool.go:134-142 | deleting a group keeps the invariant |
| WorkPoolProofs.SetPreservesInv | lib/utils/workpool/workpool.go:98-111 | setting a target keeps the invariant |
| WorkPoolProofs.StopPreservesInv | lib/utils/workpool/workpool.go:145-147 | stopping keeps the invariant |
| WorkPoolProofs.PreparePreservesInv | lib/utils/workpool/workpool.go:229-234 | allocating a candidate from the counter keeps ids unique |
| WorkPoolProofs.GrantKeepsActiveCounts | lib/utils/workpool/workpool.go:241-243 | granting the candidate keeps every group's active equal to its number of live leases |
| WorkPoolProofs.GrantKeepsIdsUnique | lib/utils/workpool/workpool.go:241-243 | granting the candidate keeps all ids distinct and within the counter |
| WorkPoolProofs.GrantPreservesInv | lib/utils/workpool/workpool.go:241-243 | granting the candidate keeps the invariant |
| WorkPoolProofs.QuietFireKeepsInv | lib/utils/workpool/workpool.go:244-246 | consuming a wake or ending the loop keeps the invariant |
| WorkPoolProofs.IterationPreservesInv | lib/utils/workpool/workpool.go:222-247 | every select case that is ready in the loop as written, a grant to a cancelled group included, keeps the invariant |
| WorkPoolProofs.RunStepPreservesInv | lib/utils/workpool/workpool.go:218-249 | every loop iteration keeps the invariant while the counter is below 2^64-1 |
| WorkPoolProofs.RunStepAsWrittenPreservesInv | lib/utils/workpool/workpool.go:240-247 | every iteration of the loop as written keeps the invariant too |
| WorkPoolProofs.ReleasePreservesInv | lib/utils/workpool/workpool.go:265-269 | releasing keeps active equal to the number of live leases |
| WorkPoolProofs.ApplyPreservesInv | lib/utils/workpool/workpool.go:98-147 | each kind of operation keeps the invariant |
| WorkPoolProofs.ApplyDrawsAtMostOneId | lib/utils/workpool/workpool.go:229-234 | one operation draws at most one id from the counter |
| WorkPoolProofs.RunPreservesInv | lib/utils/workpool/workpool.go:59-66 | any operation sequence keeps the invariant while the counter cannot reach 2^64-1 |
| WorkPoolProofs.ReachablePoolsKeepInv | lib/utils/workpool/workpool.go:30-31 | in every pool reachable from a new one, lease ids are at least one and pairwise distinct |
| WorkPoolProofs.ApplyAsWrittenPreservesInv | lib/utils/workpool/workpool.go:98-247 | each kind of operation, with the loop as written, keeps the invariant |
| WorkPoolProofs.ApplyAsWrittenDrawsAtMostOneId | lib/utils/workpool/workpool.go:229-234 | with the loop as written, one operation draws at most one id |
| WorkPoolProofs.RunAsWrittenPreservesInv | lib/utils/workpool/workpool.go:218-249 | any operation sequence with the loop as written keeps the invariant while the counter cannot reach 2^64-1 |
| WorkPoolProofs.ReachableAsWrittenPoolsKeepInv | lib/utils/workpool/workpool.go:30-31 | with the loop as written, grants that race a cancellation included, every reachable pool has distinct lease ids of at least one |
| WorkPoolProofs.GetCountsLiveLeases | lib/utils/workpool/workpool.go:86-94 | between atomic steps, the active count `Get` reports is the number of unreleased leases of the key's group, so in the model it never underflows |
| WorkPoolProofs.ReleaseDecrementsOnce | lib/utils/workpool/workpool.go:199-207 | the first release lowers its group's active by exactly one, without wrap-around |
| WorkPoolProofs.ReleaseIdempotent | lib/utils/workpool/workpool.go:34-36 | releasing twice is the same as releasing once |
| WorkPoolProofs.ReleaseOrphanLeavesRegistry | lib/utils/workpool/workpool.go:134-142 | releasing a lease of a deleted group changes what no key reports, not even a newer group under the same key |
| WorkPoolProofs.GrantedIdFresh | lib/utils/workpool/workpool.go:229-234 | a granted lease's id is at least one and differs from every earlier lease's id |
| WorkPoolProofs.CandidateKeptUntilGranted | lib/utils/workpool/workpool.go:229-234 | an iteration that does not grant keeps the pending candidate's id and draws no new id |
| WorkPoolProofs.StoppedPoolGrantsNothing | lib/utils/workpool/workpool.go:144-147 | after a stop, no sequence of operations hands out another lease, and the pool stays stopped |
| WorkPoolProofs.DeleteThenReleaseScenario | lib/utils/workpool/workpool.go:134-142 | set to 1, grant, set to 0: the key reports `{0,0}`; releasing the old lease brings nothing back and zeroes the old group |
| WorkPoolProofs.TargetTwoScenario | lib/utils/workpool/workpool.go:222-247 | a target of 2 admits leases 1 and 2, reports `{2,2}`, and blocks a third grant |
| WorkPoolProofs.TwoKeysBothServed | lib/utils/workpool/workpool.go:222-247 | with keys "a" and "b" each set to 1, either group's loop can grant first and the other can still grant, leaving both at `{1,1}` |
| WorkPoolProofs.AsWrittenGrantsAfterStop | lib/utils/workpool/workpool.go:240-247 | after a stop the loop as written can still grant, and the corrected step cannot |
| WorkPoolProofs.AsWrittenGrantsAfterDelete | lib/utils/workpool/workpool.go:240-247 | after `Set("a", 0)` the loop as written can still grant a lease of the deleted group, and the corrected step cannot |
| WorkPoolProofs.SetZeroHaltsGroup | lib/utils/workpool/workpool.go:98-103 | `Set(k, 0)` on a registered key unregisters and cancels its group, and the corrected loop of that group then grants nothing |
| WorkPoolProofs.ApplyKeepsDeletedGroupIdle | lib/utils/workpool/workpool.go:98-147 | one operation keeps a cancelled group cancelled, keeps every earlier lease, and adds no lease of that group |
| WorkPoolProofs.DeletedGroupGrantsNothing | lib/utils/workpool/workpool.go:134-142 | after a group is deleted, no sequence of operations hands out a lease of it; earlier leases keep their ids, keys and groups |
| Retry.CheckAndSetDefaults | lib/utils/retry.go:89-98 | an error iff Step is 0 or Max is 0, with the Step error taking precedence |
| Retry.NewLinearUnchecked | lib/utils/retry.go:108-118 | the same configuration and attempt 0 |
| Retry.NewLinear | lib/utils/retry.go:100-106 | succeeds iff the check passes, with the given configuration and attempt 0; otherwise fails with the check's error |
| Retry.Reset | lib/utils/retry.go:133-136 | attempt becomes 0, the configuration is kept |
| Retry.Inc | lib/utils/retry.go:143-146 | attempt rises by exactly one, the configuration is kept |
| Retry.Clone | lib/utils/retry.go:138-141 | the same configuration and attempt 0, that is, the retry after `Reset` |
| Retry.Jitter | lib/utils/retry.go:38-52 | zero below one; otherwise a value in `[d/2, d)` for a draw in `[0, d)` |
| Retry.Duration | lib/utils/retry.go:148-161 | zero while `First + attempt*Step < 1`; otherwise, without jitter, the smaller of the term and Max; with jitter, below the term and at most Max; every result is 0 or at most Max |
| Retry.IncN | lib/utils/retry.go:143-146 | `n` increments keep the configuration and add `n` to the attempt |
| Retry.NthTermClosedForm | lib/utils/retry.go:72-81 | the progression by repeated addition of Step equals `First + n*Step` |
| Retry.DurationFollowsProgression | lib/utils/retry.go:148-161 | without jitter, after `n` increments of a fresh retry the delay is the `n`-th progression term clamped to `[0, Max]` as the code does it |
| Retry.ResetForgetsIncrements | lib/utils/retry.go:133-136 | a reset after any number of increments equals a reset of the retry before them |
| Retry.CloneBehavesAsReset | lib/utils/retry.go:138-141 | a clone's delay equals the delay after a reset |
| Retry.DurationMonotone | lib/utils/retry.go:149-160 | without jitter, with Step > 0 and Max > 0, one more attempt never shortens the delay |
| Retry.DurationMonotoneAfterIncs | lib/utils/retry.go:143-160 | the same across any number of increments |
| Retry.NegativeMaxNotMonotone | lib/utils/retry.go:90-98 | a negative Max passes the check, and the delay then drops from 0 to Max after one increment |

## Left out

- Goroutines, the rendezvous channel `grantC` behind `Acquire`, the notify channel and the mutexes are not modelled. Each operation is one atomic transition. A receiver taking a lease from `Acquire` is the `Granted` case of `RunStep`. Fairness between keys and between receivers is not promised, so it is not stated.
- WorkPool.RunStep: an iteration is atomic, which hides two windows of the Go loop in `group.run`.
  - Between `loadCounts` and the select, `SetTarget` can lower the target while the send stays enabled, so the Go code can overshoot the new target by one lease.
  - Between the completed send `grant <- nextLease` and `g.incrActive()` (workpool.go:241-242), a receiver that releases the lease at once runs `decrActive` first. On an active count of 0 that wraps to 2^64-1 until `incrActive` runs, and `Get` can report the wrapped value, or an active count below the number of leases out.
  
  The model shows neither. `WorkPoolProofs.GetCountsLiveLeases` and the invariant hold at the boundaries of the atomic steps only.
- The coalescing wake signal is the group's `notified` flag. A pending wake makes the `Notified` case ready.
- `context` cancellation is modelled as two flags: the group's `cancelled` and the pool's `stopped`. Cancelling the parent context given to `NewPool` has the same effect as `Stop`, so it is not a separate operation.
- `sync.Once` is modelled as the `released` flag. `atomic.Uint64` is modelled as the `leaseIds` field.
- Keys are strings. The Go code accepts any comparable value, and the model only compares keys for equality.
- Sequences of operations are given twice. `Run` uses the corrected loop, and `RunAsWritten` uses the loop as written. The invariant is proved for both.
- WorkPoolProofs.RunPreservesInv: assumes the shared lease-id counter never wraps past 2^64-1. The counter itself wraps as `atomic.Uint64` does. Uniqueness of ids is proved only while it has not wrapped.
- Retry.Duration: computes `First + attempt*Step` with unbounded integers. It does not model the int64 wrap-around of that product and sum.
- Retry.Inc: the attempt is an unbounded natural number. The int64 wrap-around after 2^63-1 increments is not modelled.
- Retry.DurationMonotone: assumes Max > 0 in addition to Step > 0. Validation accepts a negative Max, and then the delay is not monotone (`Retry.NegativeMaxNotMonotone`).
- `NewJitter` seeds `math/rand` from the clock. The model leaves this out and takes the draw of `rng.Int63n(d)` as a parameter in `[0, d)`. The configured `Jitter` builder is modelled as a flag that selects this jitter.
- `Linear.After` (timer channels) and `Linear.String` (formatting) are not modelled, because they are I/O and presentation. `trace.Wrap` is not modelled either: the model returns the check's error unchanged.

## Findings

| source | as written | input that shows it | evidently intended | confidence | as-written member | corrected member |
|---|---|---|---|---|---|---|
| lib/utils/workpool/workpool.go:240-247 | the select lets `grant <- nextLease` compete with `<-g.ctx.Done()`, and Go picks at random when both are ready | `Set("a", 1)`, then `Stop()`, with a receiver waiting on `Acquire()`: the group may still hand out a lease; a group deleted by `Set(k, 0)` may keep granting, up to its target | a stopped pool, or a deleted group, hands out no further lease ("permanently halts all pool operations") | medium, not executed | WorkPool.RunStepAsWritten (counterexamples: WorkPoolProofs.AsWrittenGrantsAfterStop, WorkPoolProofs.AsWrittenGrantsAfterDelete) | WorkPool.RunStep (proved: WorkPoolProofs.StoppedPoolGrantsNothing, WorkPoolProofs.DeletedGroupGrantsNothing) |

=== FILE: optional.dfy ===
/** The optional value shared by the work pool and retry models: a pointer
    that may be nil in the Go code (a pending candidate lease, an
    error return). */
module Optional {

  datatype Option<+T> = None | Some(value: T)

}

=== FILE: retry.dfy ===
/** A model of the linear retry policy of lib/utils/retry.go: configuration
    checks, the attempt counter and the clamped arithmetic progression of
    delays, with optional jitter.  Durations are time.Duration values, that
    is signed 64-bit nanosecond counts; the random draw of the jitter is a
    parameter. */
module Retry {

  import opened Optional

  const MinI64: int := -0x8000_0000_0000_0000
  const MaxI64: int := 0x7FFF_FFFF_FFFF_FFFF

  /** time.Duration: nanoseconds in a signed 64-bit integer. */
  type Nanos = x: int | MinI64 <= x <= MaxI64

  datatype Error = BadParameter(message: string)

  datatype Result<T> = Ok(value: T) | Err(error: Error)

  /** The configuration of the progression.  `hasJitter` records whether a
      jitter builder is configured; the jitter it builds is `Jitter` below. */
  datatype LinearConfig = LinearConfig(first: Nanos, step: Nanos, max: Nanos, hasJitter: bool)

  /** A linear retry: its configuration and the number of attempts so far. */
  datatype Linear = Linear(config: LinearConfig, attempt: nat)

  /** Rejects a configuration without a step or without a maximum; the step
      is checked first. */
  function CheckAndSetDefaults(c: LinearConfig): (e: Option<Error>)
    ensures e.Some? <==> c.step == 0 || c.max == 0
    ensures c.step == 0 ==> e == Some(BadParameter("missing parameter Step"))
    ensures c.step != 0 && c.max == 0 ==> e == Some(BadParameter("missing parameter Max"))
  {
    if c.step == 0 then Some(BadParameter("missing parameter Step"))
    else if c.max == 0 then Some(BadParameter("missing parameter Max"))
    else None
  }

  /** Builds a retry from a configuration that was already checked. */
  function NewLinearUnchecked(c: LinearConfig): (l: Linear)
    ensures l.config == c && l.attempt == 0
  {
    Linear(c, 0)
  }

  /** Checks the configuration and builds a fresh retry from it. */
  function NewLinear(c: LinearConfig): (r: Result<Linear>)
    ensures r.Ok? <==> CheckAndSetDefaults(c).None?
    ensures r.Ok? ==> r.value.config == c && r.value.attempt == 0
    ensures r.Err? ==> r.error == CheckAndSetDefaults(c).value
  {
    match CheckAndSetDefaults(c)
    case Some(e) => Err(e)
    case None => Ok(NewLinearUnchecked(c))
  }

  function Reset(l: Linear): (r: Linear)
    ensures r.config == l.config && r.attempt == 0
  {
    l.(attempt := 0)
  }

  function Inc(l: Linear): (r: Linear)
    ensures r.config == l.config && r.attempt == l.attempt + 1
  {
    l.(attempt := l.attempt + 1)
  }

  /** A copy with the same configuration in the reset state. */
  function Clone(l: Linear): (r: Linear)
    ensures r.config == l.config && r.attempt == 0
    ensures r == Reset(l)
  {
    NewLinearUnchecked(l.config)
  }

  /** First + attempt * Step: the current term of the progression. */
  function Term(l: Linear): int {
    l.config.first + l.attempt * l.config.step
  }

  /** A draw of rand.Int63n(d): in [0, d) whenever d is positive. */
  predicate DrawFits(d: int, draw: int) {
    d < 1 || 0 <= draw < d
  }

  /** The default jitter: zero for a non-positive duration, otherwise a
      value in [d/2, d) built from the random draw. */
  function Jitter(d: int, draw: int): (j: int)
    requires DrawFits(d, draw)
    ensures d < 1 ==> j == 0
    ensures d >= 1 ==> d / 2 <= j < d
  {
    if d < 1 then 0 else d / 2 + draw / 2
  }

  /** The delay before the next attempt: zero while the progression is
      below one nanosecond, otherwise the (jittered) term capped at Max. */
  function Duration(l: Linear, draw: int): (d: Nanos)
    requires l.config.hasJitter ==> DrawFits(Term(l), draw)
    ensures Term(l) < 1 ==> d == 0
    ensures d == 0 || d <= l.config.max
    ensures Term(l) >= 1 && !l.config.hasJitter ==>
      && d <= Term(l) && d <= l.config.max
      && (d == Term(l) || d == l.config.max)
    ensures Term(l) >= 1 && l.config.hasJitter ==>
      && d < Term(l) && d <= l.config.max
      && (d >= Term(l) / 2 || d == l.config.max)
  {
    var a := Term(l);
    if a < 1 then 0
    else
      var j := if l.config.hasJitter then Jitter(a, draw) else a;
      if j <= l.config.max then j else l.config.max
  }

  // ---------------------------------------------------------------------
  // Properties

  /** `n` further attempts: the same configuration, `n` more attempts. */
  function IncN(l: Linear, n: nat): (r: Linear)
    ensures r == Linear(l.config, l.attempt + n)
  {
    if n == 0 then l else Inc(IncN(l, n - 1))
  }

  /** The progression defined by repeated addition of the step. */
  function NthTerm(first: int, step: int, n: nat): int
  {
    if n == 0 then first else NthTerm(first, step, n - 1) + step
  }

  /** The delay the progression's `n`-th term yields without jitter. */
  function Clamped(a: int, max: int): int
  {
    if a < 1 then 0 else if a <= max then a else max
  }

  lemma {:induction false} NthTermClosedForm(first: int, step: int, n: nat)
    ensures NthTerm(first, step, n) == first + n * step
  {
    if n > 0 {
      NthTermClosedForm(first, step, n - 1);
      assert n * step == (n - 1) * step + step;
    }
  }

  /** After `n` increments of a fresh retry without jitter, the delay is the
      progression's `n`-th term (by repeated addition), clamped. */
  lemma DurationFollowsProgression(c: LinearConfig, n: nat, draw: int)
    requires !c.hasJitter
    ensures Duration(IncN(NewLinearUnchecked(c), n), draw) == Clamped(NthTerm(c.first, c.step, n), c.max)
  {
    NthTermClosedForm(c.first, c.step, n);
  }

  /** Reset forgets every increment. */
  lemma ResetForgetsIncrements(l: Linear, n: nat)
    ensures Reset(IncN(l, n)) == Reset(l)
  {
  }

  /** A clone waits exactly as long as the retry it was cloned from after a reset. */
  lemma CloneBehavesAsReset(l: Linear, draw: int)
    requires l.config.hasJitter ==> DrawFits(l.config.first, draw)
    ensures Duration(Clone(l), draw) == Duration(Reset(l), draw)
  {
  }

  /** Without jitter, a positive step and a positive maximum, one more
      attempt never shortens the delay. */
  lemma DurationMonotone(l: Linear, draw: int)
    requires !l.config.hasJitter && l.config.step > 0 && l.config.max > 0
    ensures Duration(l, draw) <= Duration(Inc(l), draw)
  {
    assert Term(Inc(l)) == Term(l) + l.config.step by {
      assert (l.attempt + 1) * l.config.step == l.attempt * l.config.step + l.config.step;
    }
  }

  lemma {:induction false} DurationMonotoneAfterIncs(l: Linear, n: nat, draw: int)
    requires !l.config.hasJitter && l.config.step > 0 && l.config.max > 0
    ensures Duration(l, draw) <= Duration(IncN(l, n), draw)
  {
    if n > 0 {
      DurationMonotoneAfterIncs(l, n - 1, draw);
      DurationMonotone(IncN(l, n - 1), draw);
    }
  }

  /** A negative maximum passes the configuration check, and then the delay
      drops from zero to that negative maximum after one increment. */
  lemma NegativeMaxNotMonotone()
    ensures
      var l := Linear(LinearConfig(0, 1, -5, false), 0);
      && CheckAndSetDefaults(l.config).None?
      && Duration(l, 0) == 0
      && Duration(Inc(l), 0) == -5
  {
  }
}

=== FILE: workpool.dfy ===
/** A sequential model of the per-key lease pool of lib/utils/workpool.

    The Go code runs one goroutine per group and hands leases over a shared
    rendezvous channel.  Here every operation is one atomic transition over an
    immutable pool value:

      - `registry` maps each key to the identity of its live group;
      - `groups` holds every group ever started, indexed by its identity, so a
        group that was deleted from the registry still exists for the leases
        that point at it;
      - `leaseIds` is the shared lease-id counter;
      - `grants` holds every lease ever handed out, each with the one-shot
        flag that records whether it has been released;
      - `stopped` is the pool's own cancellation; a group is cancelled when
        its own flag is set or the pool is stopped. */
module WorkPool {

  import opened Optional

  /** The uint64 of the Go `Counts` and of the lease-id counter. */
  const MaxU64: int := 0xFFFF_FFFF_FFFF_FFFF
  type U64 = x: int | 0 <= x <= MaxU64

  /** uint64 addition and subtraction wrap around modulo 2^64. */
  function Wrap(x: int): U64 {
    x % (MaxU64 + 1)
  }

  /** A key of the pool: any comparable value in the Go code. */
  type Key = string

  /** A group's identity: its position in the pool's allocation history. */
  type GroupId = nat

  /** Target and active lease counts of one group. */
  datatype Counts = Counts(target: U64, active: U64)

  /** One group: its counts, the coalescing wake signal (`notified` is true
      while a wake is pending), its own cancellation flag, whether its
      controller loop has returned, and the candidate lease id it is
      currently offering, if any. */
  datatype Group = Group(
    key: Key,
    counts: Counts,
    notified: bool,
    cancelled: bool,
    exited: bool,
    candidate: Option<U64>)

  /** An immutable lease: its id, its key and the identity of its group. */
  datatype Lease = Lease(id: U64, key: Key, group: GroupId)

  /** A lease that was handed out, together with its release-once flag. */
  datatype Grant = Grant(lease: Lease, released: bool)

  datatype Pool = Pool(
    registry: map<Key, GroupId>,
    groups: seq<Group>,
    leaseIds: U64,
    grants: seq<Grant>,
    stopped: bool)

  /** What a caller holds: a lease handed out by the pool (an index into its
      grants) or a detached no-op lease. */
  datatype Handle = Pooled(index: nat) | Nop(key: Key)

  /** Which case of the controller loop's select fires. */
  datatype Wakeup = Granted | Notified | Done

  /** Structural well-formedness: every registered key names a live group
      carrying that key, and every lease names an existing group of its key. */
  ghost predicate WellFormed(p: Pool) {
    && (forall k :: k in p.registry ==>
          && p.registry[k] < |p.groups|
          && p.groups[p.registry[k]].key == k
          && !p.groups[p.registry[k]].cancelled)
    && (forall i :: 0 <= i < |p.grants| ==>
          && p.grants[i].lease.group < |p.groups|
          && p.grants[i].lease.key == p.groups[p.grants[i].lease.group].key)
  }

  // ---------------------------------------------------------------------
  // Group methods

  /** Raises the active count by one (uint64 arithmetic) and leaves the
      group in the notified state. */
  function IncrActive(g: Group): (r: Group)
    ensures r.key == g.key && r.counts.target == g.counts.target
    ensures r.cancelled == g.cancelled && r.exited == g.exited && r.candidate == g.candidate
    ensures r.notified
    ensures g.counts.active < MaxU64 ==> r.counts.active == g.counts.active + 1
    ensures g.counts.active == MaxU64 ==> r.counts.active == 0
  {
    g.(counts := g.counts.(active := Wrap(g.counts.active + 1)), notified := true)
  }

  /** Lowers the active count by one (uint64 arithmetic) and leaves the
      group in the notified state. */
  function DecrActive(g: Group): (r: Group)
    ensures r.key == g.key && r.counts.target == g.counts.target
    ensures r.cancelled == g.cancelled && r.exited == g.exited && r.candidate == g.candidate
    ensures r.notified
    ensures g.counts.active > 0 ==> r.counts.active == g.counts.active - 1
    ensures g.counts.active == 0 ==> r.counts.active == MaxU64
  {
    g.(counts := g.counts.(active := Wrap(g.counts.active - 1)), notified := true)
  }

  /** Replaces the target, keeps the active count, and notifies. */
  function SetTarget(g: Group, target: U64): (r: Group)
    ensures r.counts == Counts(target, g.counts.active)
    ensures r.key == g.key && r.cancelled == g.cancelled && r.exited == g.exited
    ensures r.candidate == g.candidate && r.notified
  {
    g.(counts := g.counts.(target := target), notified := true)
  }

  // ---------------------------------------------------------------------
  // Pool methods

  function NewPool(): (p: Pool)
    ensures WellFormed(p) && !p.stopped
    ensures p.registry == map[] && p.grants == [] && p.leaseIds == 0
  {
    Pool(map[], [], 0, [], false)
  }

  /** The counts of `k`'s group, or zero counts when no group exists. */
  function Get(p: Pool, k: Key): (c: Counts)
    requires WellFormed(p)
    ensures k !in p.registry ==> c == Counts(0, 0)
    ensures k in p.registry ==> c == p.groups[p.registry[k]].counts
  {
    if k in p.registry then p.groups[p.registry[k]].counts else Counts(0, 0)
  }

  /** Starts a new group for an unregistered key with the given target. */
  function Start(p: Pool, k: Key, target: U64): (q: Pool)
    requires WellFormed(p) && k !in p.registry
    ensures WellFormed(q)
    ensures Get(q, k) == Counts(target, 0)
    ensures k in q.registry && q.registry[k] == |p.groups|
    ensures q.groups[|p.groups|] == Group(k, Counts(target, 0), false, false, false, None)
    ensures forall k' :: k' != k ==> Get(q, k') == Get(p, k')
    ensures q.registry.Keys == p.registry.Keys + {k}
    ensures |q.groups| == |p.groups| + 1 && q.groups[..|p.groups|] == p.groups
    ensures q.grants == p.grants && q.leaseIds == p.leaseIds && q.stopped == p.stopped
  {
    var g := Group(k, Counts(target, 0), false, false, false, None);
    p.(registry := p.registry[k := |p.groups|], groups := p.groups + [g])
  }

  /** Cancels and unregisters `k`'s group; reports whether there was one. */
  function Del(p: Pool, k: Key): (r: (Pool, bool))
    requires WellFormed(p)
    ensures WellFormed(r.0)
    ensures r.1 <==> k in p.registry
    ensures !r.1 ==> r.0 == p
    ensures r.0.registry == p.registry - {k}
    ensures |r.0.groups| == |p.groups|
    ensures r.1 ==> r.0.groups[p.registry[k]] == p.groups[p.registry[k]].(cancelled := true)
    ensures forall gid :: 0 <= gid < |p.groups| && (k in p.registry ==> gid != p.registry[k]) ==>
      r.0.groups[gid] == p.groups[gid]
    ensures forall gid :: 0 <= gid < |p.groups| ==> r.0.groups[gid].counts == p.groups[gid].counts
    ensures r.0.grants == p.grants && r.0.leaseIds == p.leaseIds && r.0.stopped == p.stopped
  {
    if k !in p.registry then (p, false)
    else
      var gid := p.registry[k];
      (p.(registry := p.registry - {k},
          groups := p.groups[gid := p.groups[gid].(cancelled := true)]), true)
  }

  /** Sets the target for `k`: a target below one deletes the group, a
      missing group is started, an existing group gets the new target. */
  function Set(p: Pool, k: Key, target: U64): (q: Pool)
    requires WellFormed(p)
    ensures WellFormed(q)
    ensures target < 1 ==> Get(q, k) == Counts(0, 0)
    ensures target < 1 ==> q == Del(p, k).0
    ensures target < 1 ==> k !in q.registry
    ensures target < 1 && k in p.registry ==> q.groups[p.registry[k]].cancelled
    ensures target < 1 && k !in p.registry ==> q == p
    ensures target >= 1 ==> Get(q, k).target == target
    ensures target >= 1 && k !in p.registry ==> Get(q, k).active == 0
    ensures target >= 1 && k !in p.registry ==> q == Start(p, k, target)
    ensures target >= 1 && k in p.registry ==> Get(q, k).active == Get(p, k).active
    ensures target >= 1 && k in p.registry ==>
      && q.registry == p.registry
      && q.groups == p.groups[p.registry[k] := SetTarget(p.groups[p.registry[k]], target)]
    ensures forall k' :: k' != k ==> Get(q, k') == Get(p, k')
    ensures q.grants == p.grants && q.leaseIds == p.leaseIds && q.stopped == p.stopped
  {
    if target < 1 then Del(p, k).0
    else if k !in p.registry then Start(p, k, target)
    else
      var gid := p.registry[k];
      p.(groups := p.groups[gid := SetTarget(p.groups[gid], target)])
  }

  /** Cancels the pool and with it every existing and future group. */
  function Stop(p: Pool): (q: Pool)
    requires WellFormed(p)
    ensures WellFormed(q) && q.stopped
    ensures forall gid :: 0 <= gid < |q.groups| ==> IsCancelled(q, gid)
    ensures forall k :: Get(q, k) == Get(p, k)
    ensures q.registry == p.registry && q.groups == p.groups
    ensures q.grants == p.grants && q.leaseIds == p.leaseIds
  {
    p.(stopped := true)
  }

  /** A group's context is done when the group or the whole pool was cancelled. */
  predicate IsCancelled(p: Pool, gid: GroupId)
    requires gid < |p.groups|
  {
    p.stopped || p.groups[gid].cancelled
  }

  // ---------------------------------------------------------------------
  // One iteration of the group's controller loop

  /** The part of an iteration before the select: load the counts and, in
      the granting state, allocate a candidate lease id from the shared
      counter unless a candidate is already pending. */
  function Prepare(p: Pool, gid: GroupId): (q: Pool)
    requires WellFormed(p) && gid < |p.groups|
    ensures WellFormed(q)
    ensures |q.groups| == |p.groups| && q.registry == p.registry
    ensures q.grants == p.grants && q.stopped == p.stopped
    ensures forall i :: 0 <= i < |p.groups| && i != gid ==> q.groups[i] == p.groups[i]
    ensures q.groups[gid].(candidate := None) == p.groups[gid].(candidate := None)
    ensures p.groups[gid].counts.active < p.groups[gid].counts.target ==> q.groups[gid].candidate.Some?
    ensures p.groups[gid].candidate.Some? ==> q == p
    ensures p.groups[gid].counts.active >= p.groups[gid].counts.target ==> q == p
    ensures q != p ==>
      && q.leaseIds == Wrap(p.leaseIds + 1)
      && q.groups[gid].candidate == Some(q.leaseIds)
  {
    var g := p.groups[gid];
    if g.counts.active < g.counts.target && g.candidate.None? then
      var id := Wrap(p.leaseIds + 1);
      p.(leaseIds := id, groups := p.groups[gid := g.(candidate := Some(id))])
    else
      p
  }

  /** Whether a select case is ready, as the loop is written: the send is
      enabled whenever the group is in the granting state, the wake case
      whenever a wake is pending, the done case whenever the group's
      context is cancelled.  Go's select picks any ready case, so the send
      competes with the done case even after cancellation. */
  predicate ReadyAsWritten(p: Pool, gid: GroupId, w: Wakeup)
    requires gid < |p.groups|
  {
    var g := p.groups[gid];
    && !g.exited
    && match w
       case Granted => g.counts.active < g.counts.target
       case Notified => g.notified
       case Done => IsCancelled(p, gid)
  }

  /** Whether a select case may fire in the corrected loop: as written,
      except that a cancelled group never hands out a lease. */
  predicate Ready(p: Pool, gid: GroupId, w: Wakeup)
    requires gid < |p.groups|
  {
    ReadyAsWritten(p, gid, w) && (w.Granted? ==> !IsCancelled(p, gid))
  }

  /** The effect of the select case `w` after `Prepare`: a taken lease is
      appended, unreleased, and counted; a wake is consumed; a done context
      ends the loop. */
  function Fire(p: Pool, gid: GroupId, w: Wakeup): (q: Pool)
    requires WellFormed(p) && gid < |p.groups|
    requires w.Granted? ==> p.groups[gid].candidate.Some?
    ensures WellFormed(q)
    ensures q.registry == p.registry && q.leaseIds == p.leaseIds && q.stopped == p.stopped
    ensures |q.groups| == |p.groups|
    ensures forall i :: 0 <= i < |p.groups| && i != gid ==> q.groups[i] == p.groups[i]
    ensures w.Granted? ==>
      && q.groups[gid] == IncrActive(p.groups[gid]).(candidate := None)
      && q.grants == p.grants + [Grant(Lease(p.groups[gid].candidate.value, p.groups[gid].key, gid), false)]
    ensures !w.Granted? ==>
      && q.grants == p.grants
      && q.groups[gid].counts == p.groups[gid].counts
      && q.groups[gid].candidate == p.groups[gid].candidate
    ensures w.Notified? ==> q.groups[gid] == p.groups[gid].(notified := false)
    ensures w.Done? ==> q.groups[gid] == p.groups[gid].(exited := true)
  {
    var g := p.groups[gid];
    match w
    case Granted =>
      var l := Lease(g.candidate.value, g.key, gid);
      p.(groups := p.groups[gid := IncrActive(g).(candidate := None)],
         grants := p.grants + [Grant(l, false)])
    case Notified =>
      p.(groups := p.groups[gid := g.(notified := false)])
    case Done =>
      p.(groups := p.groups[gid := g.(exited := true)])
  }

  /** One iteration of the controller loop of group `gid` in which select
      case `w` fires (the corrected loop); None when that case cannot fire. */
  function RunStep(p: Pool, gid: GroupId, w: Wakeup): (r: Option<Pool>)
    requires WellFormed(p)
    ensures r.Some? ==> gid < |p.groups| && WellFormed(r.value)
    ensures r.Some? ==>
      && r.value.registry == p.registry && r.value.stopped == p.stopped
      && |r.value.groups| == |p.groups|
    ensures r.Some? ==> r.value.leaseIds == p.leaseIds || r.value.leaseIds == Wrap(p.leaseIds + 1)
    ensures p.stopped && w.Granted? ==> r.None?
    ensures gid < |p.groups| && p.groups[gid].exited ==> r.None?
    ensures r.Some? && w.Notified? ==> p.groups[gid].notified
    ensures r.Some? && w.Done? ==> IsCancelled(p, gid)
    ensures gid < |p.groups| && !p.groups[gid].exited ==>
      && (w.Granted? && !IsCancelled(p, gid) && p.groups[gid].counts.active < p.groups[gid].counts.target ==> r.Some?)
      && (w.Notified? && p.groups[gid].notified ==> r.Some?)
      && (w.Done? && IsCancelled(p, gid) ==> r.Some?)
    ensures r.Some? && w.Granted? ==>
      && !IsCancelled(p, gid)
      && p.groups[gid].counts.active < p.groups[gid].counts.target
      && r.value.groups[gid] == IncrActive(p.groups[gid]).(candidate := None)
      && r.value.groups[gid].counts.target == p.groups[gid].counts.target
      && r.value.groups[gid].counts.active == p.groups[gid].counts.active + 1
      && r.value.groups[gid].counts.active <= r.value.groups[gid].counts.target
      && |r.value.grants| == |p.grants| + 1 && r.value.grants[..|p.grants|] == p.grants
      && r.value.grants[|p.grants|] == Grant(Lease(
           if p.groups[gid].candidate.Some? then p.groups[gid].candidate.value else Wrap(p.leaseIds + 1),
           p.groups[gid].key, gid), false)
    ensures r.Some? && !w.Granted? ==>
      && r.value.grants == p.grants
      && forall i :: 0 <= i < |p.groups| ==> r.value.groups[i].counts == p.groups[i].counts
    ensures r.Some? ==> forall i :: 0 <= i < |p.groups| && i != gid ==> r.value.groups[i] == p.groups[i]
  {
    if gid < |p.groups| && Ready(p, gid, w) then
      Some(Fire(Prepare(p, gid), gid, w))
    else
      None
  }

  /** One iteration of the loop in `group.run` as written: the
      grant can fire whether or not the group is cancelled. */
  function RunStepAsWritten(p: Pool, gid: GroupId, w: Wakeup): (r: Option<Pool>)
    requires WellFormed(p)
    ensures r.Some? ==> gid < |p.groups| && WellFormed(r.value) && |r.value.groups| == |p.groups|
    ensures r.Some? ==> r.value.leaseIds == p.leaseIds || r.value.leaseIds == Wrap(p.leaseIds + 1)
    ensures r.Some? && w.Granted? ==>
      && p.groups[gid].counts.active < p.groups[gid].counts.target
      && r.value.groups[gid].counts.active == p.groups[gid].counts.active + 1
      && |r.value.grants| == |p.grants| + 1
    ensures gid < |p.groups| && !p.groups[gid].exited ==>
      (w.Granted? && p.groups[gid].counts.active < p.groups[gid].counts.target ==> r.Some?)
    ensures gid < |p.groups| && !w.Granted? ==> RunStep(p, gid, w) == r
    ensures gid < |p.groups| && !IsCancelled(p, gid) ==> RunStep(p, gid, w) == r
  {
    if gid < |p.groups| && ReadyAsWritten(p, gid, w) then
      Some(Fire(Prepare(p, gid), gid, w))
    else
      None
  }

  // ---------------------------------------------------------------------
  // Leases

  /** Releases the lease at `h`: the first release lowers the active count
      of the lease's own group; later releases change nothing. */
  function Release(p: Pool, h: nat): (q: Pool)
    requires WellFormed(p) && h < |p.grants|
    ensures WellFormed(q) && |q.grants| == |p.grants| && |q.groups| == |p.groups|
    ensures q.grants[h].released
    ensures p.grants[h].released ==> q == p
    ensures !p.grants[h].released ==>
      var gid := p.grants[h].lease.group;
      && q.groups[gid] == DecrActive(p.groups[gid])
      && (forall i :: 0 <= i < |p.groups| && i != gid ==> q.groups[i] == p.groups[i])
      && (forall i :: 0 <= i < |p.grants| && i != h ==> q.grants[i] == p.grants[i])
      && q.grants[h].lease == p.grants[h].lease
    ensures q.registry == p.registry
    ensures q.leaseIds == p.leaseIds && q.stopped == p.stopped
  {
    if p.grants[h].released then p
    else
      var gid := p.grants[h].lease.group;
      p.(grants := p.grants[h := p.grants[h].(released := true)],
         groups := p.groups[gid := DecrActive(p.groups[gid])])
  }

  /** A detached lease for `key` that belongs to no pool. */
  function NOPLease(key: Key): (l: Handle)
    ensures l.Nop? && l.key == key
  {
    Nop(key)
  }

  predicate ValidHandle(p: Pool, l: Handle) {
    l.Pooled? ==> l.index < |p.grants|
  }

  /** The id of a lease: a pooled lease's own id, 0 for a detached one. */
  function LeaseID(p: Pool, l: Handle): (id: U64)
    requires ValidHandle(p, l)
    ensures l.Nop? ==> id == 0
    ensures l.Pooled? ==> id == p.grants[l.index].lease.id
  {
    match l
    case Pooled(i) => p.grants[i].lease.id
    case Nop(_) => 0
  }

  /** The key of a lease: for a pooled lease the key of the group it was
      granted by, for a detached one the key it was made for. */
  function LeaseKey(p: Pool, l: Handle): (key: Key)
    requires WellFormed(p) && ValidHandle(p, l)
    ensures l.Nop? ==> key == l.key
    ensures l.Pooled? ==> key == p.groups[p.grants[l.index].lease.group].key
  {
    match l
    case Pooled(i) => p.grants[i].lease.key
    case Nop(k) => k
  }

  /** Releasing a pooled lease is `Release`; a detached lease does nothing. */
  function ReleaseLease(p: Pool, l: Handle): (q: Pool)
    requires WellFormed(p) && ValidHandle(p, l)
    ensures WellFormed(q)
    ensures l.Nop? ==> q == p
    ensures l.Pooled? ==> q == Release(p, l.index)
  {
    match l
    case Pooled(i) => Release(p, i)
    case Nop(_) => p
  }

  // ---------------------------------------------------------------------
  // Operation sequences

  /** One atomic transition of the pool driven by its environment. */
  datatype Op =
    | SetOp(key: Key, target: U64)
    | StepOp(gid: GroupId, wakeup: Wakeup)
    | ReleaseOp(index: nat)
    | StopOp

  /** Applies one operation; a loop iteration whose select case cannot
      fire, or a release of a lease that was never handed out, leaves the
      pool as it is. */
  function Apply(p: Pool, op: Op): (q: Pool)
    requires WellFormed(p)
    ensures WellFormed(q)
    ensures p.stopped ==> q.stopped
    ensures |q.grants| >= |p.grants|
    ensures p.stopped ==> |q.grants| == |p.grants|
  {
    match op
    case SetOp(k, t) => Set(p, k, t)
    case StepOp(gid, w) =>
      var r := RunStep(p, gid, w);
      if r.Some? then r.value else p
    case ReleaseOp(h) => if h < |p.grants| then Release(p, h) else p
    case StopOp => Stop(p)
  }

  function Run(p: Pool, ops: seq<Op>): (q: Pool)
    requires WellFormed(p)
    ensures WellFormed(q)
    decreases |ops|
  {
    if ops == [] then p else Run(Apply(p, ops[0]), ops[1..])
  }

  /** Applies one operation with the controller loop as written, where a
      cancelled group can still hand out a lease. */
  function ApplyAsWritten(p: Pool, op: Op): (q: Pool)
    requires WellFormed(p)
    ensures WellFormed(q)
    ensures p.stopped ==> q.stopped
    ensures |q.grants| >= |p.grants|
    ensures !op.StepOp? ==> q == Apply(p, op)
  {
    match op
    case StepOp(gid, w) =>
      var r := RunStepAsWritten(p, gid, w);
      if r.Some? then r.value else p
    case _ => Apply(p, op)
  }

  function RunAsWritten(p: Pool, ops: seq<Op>): (q: Pool)
    requires WellFormed(p)
    ensures WellFormed(q)
    decreases |ops|
  {
    if ops == [] then p else RunAsWritten(ApplyAsWritten(p, ops[0]), ops[1..])
  }
}

=== FILE: workpool_proofs.dfy ===
/** Invariants of the work pool model and the properties the Go code
    promises, proved over single transitions and over whole operation
    sequences. */
module WorkPoolProofs {

  import opened Optional
  import opened WorkPool

  /** The number of leases in `grants` that belong to group `gid` and have
      not been released. */
  function Live(grants: seq<Grant>, gid: GroupId): nat
  {
    if grants == [] then 0
    else
      var last := grants[|grants| - 1];
      Live(grants[..|grants| - 1], gid) + (if last.lease.group == gid && !last.released then 1 else 0)
  }

  /** Every group's active count is the number of its live leases. */
  ghost predicate ActiveCountsLeases(p: Pool) {
    forall gid :: 0 <= gid < |p.groups| ==> p.groups[gid].counts.active == Live(p.grants, gid)
  }

  /** Every lease id handed out or pending as a candidate lies in
      1..leaseIds, and no id is used twice. */
  ghost predicate IdsUnique(p: Pool) {
    && (forall i :: 0 <= i < |p.grants| ==> 1 <= p.grants[i].lease.id <= p.leaseIds)
    && (forall i, j :: 0 <= i < j < |p.grants| ==> p.grants[i].lease.id != p.grants[j].lease.id)
    && (forall g :: 0 <= g < |p.groups| && p.groups[g].candidate.Some? ==>
          1 <= p.groups[g].candidate.value <= p.leaseIds)
    && (forall g, i :: 0 <= g < |p.groups| && p.groups[g].candidate.Some? && 0 <= i < |p.grants| ==>
          p.groups[g].candidate.value != p.grants[i].lease.id)
    && (forall g, h :: 0 <= g < h < |p.groups| && p.groups[g].candidate.Some? && p.groups[h].candidate.Some? ==>
          p.groups[g].candidate.value != p.groups[h].candidate.value)
  }

  ghost predicate Inv(p: Pool) {
    WellFormed(p) && ActiveCountsLeases(p) && IdsUnique(p)
  }

  // ---------------------------------------------------------------------
  // Counting live leases

  lemma {:induction false} LiveNone(grants: seq<Grant>, gid: GroupId)
    requires forall i :: 0 <= i < |grants| ==> grants[i].lease.group != gid
    ensures Live(grants, gid) == 0
  {
    if grants != [] {
      LiveNone(grants[..|grants| - 1], gid);
    }
  }

  lemma LiveAppend(grants: seq<Grant>, x: Grant, gid: GroupId)
    ensures Live(grants + [x], gid) == Live(grants, gid) + (if x.lease.group == gid && !x.released then 1 else 0)
  {
    assert (grants + [x])[..|grants|] == grants;
  }

  /** Marking lease `h` released removes it from its own group's live
      count, if it was live, and from no other group's. */
  lemma {:induction false} LiveRelease(grants: seq<Grant>, h: nat, gid: GroupId)
    requires h < |grants|
    ensures Live(grants[h := grants[h].(released := true)], gid)
         == Live(grants, gid) - (if grants[h].lease.group == gid && !grants[h].released then 1 else 0)
  {
    var n := |grants| - 1;
    var after := grants[h := grants[h].(released := true)];
    if h == n {
      assert after[..n] == grants[..n];
    } else {
      LiveRelease(grants[..n], h, gid);
      assert after[..n] == grants[..n][h := grants[h].(released := true)];
    }
  }

  // ---------------------------------------------------------------------
  // Group counters

  /** Raising and then lowering the active count (or the other way round)
      restores the counts, including across the uint64 wrap-around. */
  lemma IncrDecrInverse(g: Group)
    ensures DecrActive(IncrActive(g)).counts == g.counts
    ensures IncrActive(DecrActive(g)).counts == g.counts
  {
  }

  // ---------------------------------------------------------------------
  // The invariant holds initially and is kept by every operation

  lemma NewPoolInv()
    ensures Inv(NewPool())
  {
  }

  lemma StartPreservesInv(p: Pool, k: Key, target: U64)
    requires Inv(p) && k !in p.registry
    ensures Inv(Start(p, k, target))
  {
    var n := |p.groups|;
    var q := Start(p, k, target);
    assert q.grants == p.grants && q.leaseIds == p.leaseIds;
    assert q.groups[n] == Group(k, Counts(target, 0), false, false, false, None);
    forall g | 0 <= g < n
      ensures q.groups[g] == p.groups[g]
    {
      assert q.groups[g] == q.groups[..n][g];
    }
    forall g | 0 <= g < |q.groups|
      ensures q.groups[g].counts.active == Live(q.grants, g)
    {
      if g == n {
        LiveNone(p.grants, n);
      }
    }
    forall g | 0 <= g < |q.groups| && q.groups[g].candidate.Some?
      ensures 1 <= q.groups[g].candidate.value <= q.leaseIds
    {
    }
    forall g, i | 0 <= g < |q.groups| && q.groups[g].candidate.Some? && 0 <= i < |q.grants|
      ensures q.groups[g].candidate.value != q.grants[i].lease.id
    {
    }
    forall g, h | 0 <= g < h < |q.groups| && q.groups[g].candidate.Some? && q.groups[h].candidate.Some?
      ensures q.groups[g].candidate.value != q.groups[h].candidate.value
    {
    }
    assert ActiveCountsLeases(q);
    assert IdsUnique(q);
  }

  lemma DelPreservesInv(p: Pool, k: Key)
    requires Inv(p)
    ensures Inv(Del(p, k).0)
  {
    if k in p.registry {
      var q := Del(p, k).0;
      var gid := p.registry[k];
      assert forall g :: 0 <= g < |q.groups| ==> q.groups[g].candidate == p.groups[g].candidate;
      assert IdsUnique(q);
    }
  }

  lemma SetPreservesInv(p: Pool, k: Key, target: U64)
    requires Inv(p)
    ensures Inv(Set(p, k, target))
  {
    if target < 1 {
      DelPreservesInv(p, k);
    } else if k !in p.registry {
      StartPreservesInv(p, k, target);
    } else {
      var q := Set(p, k, target);
      var gid := p.registry[k];
      assert forall g :: 0 <= g < |q.groups| ==> q.groups[g].candidate == p.groups[g].candidate;
      assert IdsUnique(q);
    }
  }

  lemma StopPreservesInv(p: Pool)
    requires Inv(p)
    ensures Inv(Stop(p))
  {
  }

  lemma ReleasePreservesInv(p: Pool, h: nat)
    requires Inv(p) && h < |p.grants|
    ensures Inv(Release(p, h))
  {
    if !p.grants[h].released {
      var q := Release(p, h);
      forall g | 0 <= g < |q.groups|
        ensures q.groups[g].counts.active == Live(q.grants, g)
      {
        LiveRelease(p.grants, h, g);
      }
      assert ActiveCountsLeases(q);
      forall i | 0 <= i < |q.grants|
        ensures q.grants[i].lease == p.grants[i].lease
      {
      }
      forall g | 0 <= g < |q.groups|
        ensures q.groups[g].candidate == p.groups[g].candidate
      {
      }
      assert IdsUnique(q);
    }
  }

  /** Giving group `gid` the next counter value as its candidate keeps ids
      unique. */
  lemma FreshCandidateKeepsIdsUnique(p: Pool, gid: GroupId)
    requires IdsUnique(p) && p.leaseIds < MaxU64 && gid < |p.groups|
    requires p.groups[gid].candidate.None?
    ensures var id := p.leaseIds + 1;
      IdsUnique(p.(leaseIds := id, groups := p.groups[gid := p.groups[gid].(candidate := Some(id))]))
  {
    var id := p.leaseIds + 1;
    var q := p.(leaseIds := id, groups := p.groups[gid := p.groups[gid].(candidate := Some(id))]);
    forall i | 0 <= i < |q.grants|
      ensures 1 <= q.grants[i].lease.id <= q.leaseIds
    {
    }
    forall i | 0 <= i < |q.groups| && q.groups[i].candidate.Some?
      ensures 1 <= q.groups[i].candidate.value <= q.leaseIds
    {
    }
    forall i, j | 0 <= i < |q.groups| && q.groups[i].candidate.Some? && 0 <= j < |q.grants|
      ensures q.groups[i].candidate.value != q.grants[j].lease.id
    {
      if i == gid {
        assert q.grants[j].lease.id <= p.leaseIds;
      }
    }
    forall i, j | 0 <= i < j < |q.groups| && q.groups[i].candidate.Some? && q.groups[j].candidate.Some?
      ensures q.groups[i].candidate.value != q.groups[j].candidate.value
    {
      if i == gid {
        assert q.groups[j].candidate == p.groups[j].candidate;
      } else if j == gid {
        assert q.groups[i].candidate == p.groups[i].candidate;
      }
    }
  }

  lemma PrepareKeepsActiveCounts(p: Pool, gid: GroupId)
    requires WellFormed(p) && ActiveCountsLeases(p) && gid < |p.groups|
    ensures ActiveCountsLeases(Prepare(p, gid))
  {
    var q := Prepare(p, gid);
    forall i | 0 <= i < |q.groups|
      ensures q.groups[i].counts.active == Live(q.grants, i)
    {
      if i == gid {
        assert q.groups[gid].(candidate := None).counts == p.groups[gid].(candidate := None).counts;
      }
    }
  }

  lemma PreparePreservesInv(p: Pool, gid: GroupId)
    requires Inv(p) && p.leaseIds < MaxU64 && gid < |p.groups|
    ensures Inv(Prepare(p, gid))
  {
    PrepareKeepsActiveCounts(p, gid);
    var g := p.groups[gid];
    if g.counts.active < g.counts.target && g.candidate.None? {
      var id := p.leaseIds + 1;
      assert Wrap(p.leaseIds + 1) == id;
      assert Prepare(p, gid) == p.(leaseIds := id, groups := p.groups[gid := g.(candidate := Some(id))]);
      FreshCandidateKeepsIdsUnique(p, gid);
    }
  }

  lemma GrantKeepsActiveCounts(p: Pool, gid: GroupId)
    requires WellFormed(p) && ActiveCountsLeases(p) && gid < |p.groups| && p.groups[gid].candidate.Some?
    requires p.groups[gid].counts.active < p.groups[gid].counts.target
    ensures ActiveCountsLeases(Fire(p, gid, Granted))
  {
    var g := p.groups[gid];
    var x := Grant(Lease(g.candidate.value, g.key, gid), false);
    var q := Fire(p, gid, Granted);
    assert q.grants == p.grants + [x];
    forall i | 0 <= i < |q.groups|
      ensures q.groups[i].counts.active == Live(q.grants, i)
    {
      LiveAppend(p.grants, x, i);
    }
  }

  lemma GrantKeepsIdsUnique(p: Pool, gid: GroupId)
    requires WellFormed(p) && IdsUnique(p) && gid < |p.groups| && p.groups[gid].candidate.Some?
    ensures IdsUnique(Fire(p, gid, Granted))
  {
    var g := p.groups[gid];
    var c := g.candidate.value;
    var n := |p.grants|;
    var x := Grant(Lease(c, g.key, gid), false);
    var q := Fire(p, gid, Granted);
    assert q.grants == p.grants + [x] && q.leaseIds == p.leaseIds;
    assert forall i :: 0 <= i < |q.groups| && i != gid ==> q.groups[i] == p.groups[i];
    assert q.groups[gid].candidate.None?;
    forall i | 0 <= i < |q.grants|
      ensures 1 <= q.grants[i].lease.id <= q.leaseIds
    {
      if i < n {
        assert q.grants[i] == p.grants[i];
      }
    }
    forall i, j | 0 <= i < j < |q.grants|
      ensures q.grants[i].lease.id != q.grants[j].lease.id
    {
      assert q.grants[i] == p.grants[i];
      if j < n {
        assert q.grants[j] == p.grants[j];
      } else {
        assert c != p.grants[i].lease.id;
      }
    }
    forall i, j | 0 <= i < |q.groups| && q.groups[i].candidate.Some? && 0 <= j < |q.grants|
      ensures q.groups[i].candidate.value != q.grants[j].lease.id
    {
      if j < n {
        assert q.grants[j] == p.grants[j];
      } else if i < gid {
        assert p.groups[i].candidate.value != p.groups[gid].candidate.value;
      } else {
        assert p.groups[gid].candidate.value != p.groups[i].candidate.value;
      }
    }
  }

  lemma GrantPreservesInv(p: Pool, gid: GroupId)
    requires Inv(p) && gid < |p.groups| && p.groups[gid].candidate.Some?
    requires p.groups[gid].counts.active < p.groups[gid].counts.target
    ensures Inv(Fire(p, gid, Granted))
  {
    GrantKeepsActiveCounts(p, gid);
    GrantKeepsIdsUnique(p, gid);
  }

  /** A wake or a done case changes no count, lease or candidate. */
  lemma QuietFireKeepsInv(p: Pool, gid: GroupId, w: Wakeup)
    requires Inv(p) && gid < |p.groups| && !w.Granted?
    ensures Inv(Fire(p, gid, w))
  {
    var q := Fire(p, gid, w);
    assert forall g :: 0 <= g < |q.groups| ==> q.groups[g].candidate == p.groups[g].candidate;
    assert forall g :: 0 <= g < |q.groups| ==> q.groups[g].counts == p.groups[g].counts;
    assert ActiveCountsLeases(q);
    assert IdsUnique(q);
  }

  /** Any select case that is ready in the loop as written, including a
      grant to a cancelled group, keeps the invariant. */
  lemma IterationPreservesInv(p: Pool, gid: GroupId, w: Wakeup)
    requires Inv(p) && p.leaseIds < MaxU64 && gid < |p.groups|
    requires ReadyAsWritten(p, gid, w)
    ensures w.Granted? ==> Prepare(p, gid).groups[gid].candidate.Some?
    ensures Inv(Fire(Prepare(p, gid), gid, w))
  {
    PreparePreservesInv(p, gid);
    var mid := Prepare(p, gid);
    if w.Granted? {
      GrantPreservesInv(mid, gid);
    } else {
      QuietFireKeepsInv(mid, gid, w);
    }
  }

  lemma RunStepPreservesInv(p: Pool, gid: GroupId, w: Wakeup)
    requires Inv(p) && p.leaseIds < MaxU64
    requires RunStep(p, gid, w).Some?
    ensures Inv(RunStep(p, gid, w).value)
  {
    IterationPreservesInv(p, gid, w);
  }

  lemma RunStepAsWrittenPreservesInv(p: Pool, gid: GroupId, w: Wakeup)
    requires Inv(p) && p.leaseIds < MaxU64
    requires RunStepAsWritten(p, gid, w).Some?
    ensures Inv(RunStepAsWritten(p, gid, w).value)
  {
    IterationPreservesInv(p, gid, w);
  }

  /** The lease-id counter moves by at most one per operation. */
  lemma ApplyDrawsAtMostOneId(p: Pool, op: Op)
    requires WellFormed(p) && p.leaseIds < MaxU64
    ensures p.leaseIds <= Apply(p, op).leaseIds <= p.leaseIds + 1
  {
    assert Wrap(p.leaseIds + 1) == p.leaseIds + 1;
  }

  lemma ApplyPreservesInv(p: Pool, op: Op)
    requires Inv(p) && p.leaseIds < MaxU64
    ensures Inv(Apply(p, op))
  {
    var q := Apply(p, op);
    match op
    case SetOp(k, t) =>
      assert q == Set(p, k, t);
      SetPreservesInv(p, k, t);
    case StepOp(gid, w) =>
      var r := RunStep(p, gid, w);
      if r.Some? {
        assert q == r.value;
        RunStepPreservesInv(p, gid, w);
      } else {
        assert q == p;
      }
    case ReleaseOp(h) =>
      if h < |p.grants| {
        assert q == Release(p, h);
        ReleasePreservesInv(p, h);
      } else {
        assert q == p;
      }
    case StopOp =>
      assert q == Stop(p);
      StopPreservesInv(p);
  }

  /** Every sequence of operations keeps the invariant, as long as the
      shared lease-id counter cannot reach the end of the uint64 range. */
  lemma {:induction false} RunPreservesInv(p: Pool, ops: seq<Op>)
    requires Inv(p) && p.leaseIds + |ops| <= MaxU64
    ensures Inv(Run(p, ops))
    decreases |ops|
  {
    if ops != [] {
      ApplyPreservesInv(p, ops[0]);
      ApplyDrawsAtMostOneId(p, ops[0]);
      RunPreservesInv(Apply(p, ops[0]), ops[1..]);
    }
  }

  /** In every pool reachable from a new pool, lease ids are at least one
      and pairwise distinct, and each group's active count is the number of
      its unreleased leases. */
  lemma ReachablePoolsKeepInv(ops: seq<Op>)
    requires |ops| <= MaxU64
    ensures Inv(Run(NewPool(), ops))
    ensures var q := Run(NewPool(), ops);
      && (forall i, j :: 0 <= i < j < |q.grants| ==> q.grants[i].lease.id != q.grants[j].lease.id)
      && (forall i :: 0 <= i < |q.grants| ==> q.grants[i].lease.id >= 1)
  {
    NewPoolInv();
    RunPreservesInv(NewPool(), ops);
  }

  /** The same holds for the loop as written: a grant that races a
      cancellation still keeps ids unique and counts exact. */
  lemma ApplyAsWrittenPreservesInv(p: Pool, op: Op)
    requires Inv(p) && p.leaseIds < MaxU64
    ensures Inv(ApplyAsWritten(p, op))
  {
    if op.StepOp? {
      var r := RunStepAsWritten(p, op.gid, op.wakeup);
      if r.Some? {
        assert ApplyAsWritten(p, op) == r.value;
        RunStepAsWrittenPreservesInv(p, op.gid, op.wakeup);
      }
    } else {
      ApplyPreservesInv(p, op);
    }
  }

  lemma ApplyAsWrittenDrawsAtMostOneId(p: Pool, op: Op)
    requires WellFormed(p) && p.leaseIds < MaxU64
    ensures p.leaseIds <= ApplyAsWritten(p, op).leaseIds <= p.leaseIds + 1
  {
    assert Wrap(p.leaseIds + 1) == p.leaseIds + 1;
    if !op.StepOp? {
      ApplyDrawsAtMostOneId(p, op);
    }
  }

  lemma {:induction false} RunAsWrittenPreservesInv(p: Pool, ops: seq<Op>)
    requires Inv(p) && p.leaseIds + |ops| <= MaxU64
    ensures Inv(RunAsWritten(p, ops))
    decreases |ops|
  {
    if ops != [] {
      ApplyAsWrittenPreservesInv(p, ops[0]);
      ApplyAsWrittenDrawsAtMostOneId(p, ops[0]);
      RunAsWrittenPreservesInv(ApplyAsWritten(p, ops[0]), ops[1..]);
    }
  }

  /** Every pool the Go code can reach from a new pool, grants
      racing cancellation included, has distinct lease ids of at least one. */
  lemma ReachableAsWrittenPoolsKeepInv(ops: seq<Op>)
    requires |ops| <= MaxU64
    ensures Inv(RunAsWritten(NewPool(), ops))
    ensures var q := RunAsWritten(NewPool(), ops);
      && (forall i, j :: 0 <= i < j < |q.grants| ==> q.grants[i].lease.id != q.grants[j].lease.id)
      && (forall i :: 0 <= i < |q.grants| ==> q.grants[i].lease.id >= 1)
  {
    NewPoolInv();
    RunAsWrittenPreservesInv(NewPool(), ops);
  }

  // ---------------------------------------------------------------------
  // Properties of leases

  /** The reported active count of a key is the number of live leases of
      its group, so it can never drop below zero. */
  lemma GetCountsLiveLeases(p: Pool, k: Key)
    requires Inv(p) && k in p.registry
    ensures Get(p, k).active == Live(p.grants, p.registry[k])
  {
  }

  /** The first release of a lease lowers its group's active count by
      exactly one, without wrapping around. */
  lemma ReleaseDecrementsOnce(p: Pool, h: nat)
    requires Inv(p) && h < |p.grants| && !p.grants[h].released
    ensures var gid := p.grants[h].lease.group;
      Release(p, h).groups[gid].counts.active == p.groups[gid].counts.active - 1
  {
    LiveRelease(p.grants, h, p.grants[h].lease.group);
  }

  /** Releasing a lease a second time has no effect. */
  lemma ReleaseIdempotent(p: Pool, h: nat)
    requires WellFormed(p) && h < |p.grants|
    ensures Release(Release(p, h), h) == Release(p, h)
  {
  }

  /** Releasing a lease whose group was deleted touches only that orphaned
      group: every key, including the lease's own key and any newer group
      started under it, reports the same counts as before. */
  lemma ReleaseOrphanLeavesRegistry(p: Pool, h: nat)
    requires WellFormed(p) && h < |p.grants|
    requires p.grants[h].lease.group !in p.registry.Values
    ensures forall k :: Get(Release(p, h), k) == Get(p, k)
  {
    var q := Release(p, h);
    forall k
      ensures Get(q, k) == Get(p, k)
    {
      if k in p.registry {
        assert p.registry[k] in p.registry.Values;
      }
    }
  }

  /** A lease granted by a loop iteration gets an id of at least one that
      differs from every lease handed out before. */
  lemma GrantedIdFresh(p: Pool, gid: GroupId)
    requires Inv(p) && p.leaseIds < MaxU64
    requires RunStep(p, gid, Granted).Some?
    ensures var q := RunStep(p, gid, Granted).value;
      && q.grants[|p.grants|].lease.id >= 1
      && forall i :: 0 <= i < |p.grants| ==> q.grants[|p.grants|].lease.id != p.grants[i].lease.id
  {
    PreparePreservesInv(p, gid);
    var mid := Prepare(p, gid);
    var q := RunStep(p, gid, Granted).value;
    assert q == Fire(mid, gid, Granted);
    assert q.grants[|p.grants|].lease.id == mid.groups[gid].candidate.value;
  }

  /** A pending candidate keeps its id across iterations in which it is not
      taken, and such iterations draw no new id from the counter. */
  lemma CandidateKeptUntilGranted(p: Pool, gid: GroupId, w: Wakeup)
    requires WellFormed(p) && gid < |p.groups| && p.groups[gid].candidate.Some?
    requires !w.Granted? && RunStep(p, gid, w).Some?
    ensures RunStep(p, gid, w).value.groups[gid].candidate == p.groups[gid].candidate
    ensures RunStep(p, gid, w).value.leaseIds == p.leaseIds
  {
  }

  /** Once the pool is stopped, no sequence of operations hands out another
      lease; existing leases can still be released. */
  lemma {:induction false} StoppedPoolGrantsNothing(p: Pool, ops: seq<Op>)
    requires WellFormed(p) && p.stopped
    ensures Run(p, ops).stopped
    ensures |Run(p, ops).grants| == |p.grants|
    decreases |ops|
  {
    if ops != [] {
      StoppedPoolGrantsNothing(Apply(p, ops[0]), ops[1..]);
    }
  }

  /** Every later lease of `p` keeps its lease, group `gid` still exists and
      is cancelled, and every lease added after `p` belongs to another group. */
  ghost predicate DeletedGroupIdle(p: Pool, q: Pool, gid: GroupId) {
    && gid < |q.groups| && q.groups[gid].cancelled
    && |q.grants| >= |p.grants|
    && (forall i :: 0 <= i < |p.grants| ==> q.grants[i].lease == p.grants[i].lease)
    && (forall i :: |p.grants| <= i < |q.grants| ==> q.grants[i].lease.group != gid)
  }

  lemma SetKeepsDeletedGroupIdle(p: Pool, k: Key, t: U64, gid: GroupId)
    requires WellFormed(p) && gid < |p.groups| && p.groups[gid].cancelled
    ensures DeletedGroupIdle(p, Set(p, k, t), gid)
  {
    var q := Set(p, k, t);
    assert q.grants == p.grants;
    if t >= 1 && k !in p.registry {
      assert q.groups[..|p.groups|] == p.groups;
      assert q.groups[gid] == q.groups[..|p.groups|][gid];
    } else if t >= 1 {
      assert p.registry[k] != gid;
    }
  }

  lemma StepKeepsDeletedGroupIdle(p: Pool, g: GroupId, w: Wakeup, gid: GroupId)
    requires WellFormed(p) && gid < |p.groups| && p.groups[gid].cancelled
    ensures RunStep(p, g, w).Some? ==> DeletedGroupIdle(p, RunStep(p, g, w).value, gid)
  {
    var r := RunStep(p, g, w);
    if r.Some? && g == gid {
      var pp := Prepare(p, gid);
      assert pp.groups[gid].cancelled;
      assert r.value == Fire(pp, gid, w);
    }
  }

  lemma ReleaseKeepsDeletedGroupIdle(p: Pool, h: nat, gid: GroupId)
    requires WellFormed(p) && gid < |p.groups| && p.groups[gid].cancelled && h < |p.grants|
    ensures DeletedGroupIdle(p, Release(p, h), gid)
  {
  }

  /** One operation neither revives a deleted group nor lets it grant. */
  lemma ApplyKeepsDeletedGroupIdle(p: Pool, op: Op, gid: GroupId)
    requires WellFormed(p) && gid < |p.groups| && p.groups[gid].cancelled
    ensures DeletedGroupIdle(p, Apply(p, op), gid)
  {
    match op
    case SetOp(k, t) => SetKeepsDeletedGroupIdle(p, k, t, gid);
    case StepOp(g, w) => StepKeepsDeletedGroupIdle(p, g, w, gid);
    case ReleaseOp(h) => if h < |p.grants| { ReleaseKeepsDeletedGroupIdle(p, h, gid); }
    case StopOp =>
  }

  /** A group deleted by `Set(k, 0)`, or cancelled in any other way, hands out
      no lease in any later sequence of operations of the corrected loop. */
  lemma {:induction false} DeletedGroupGrantsNothing(p: Pool, ops: seq<Op>, gid: GroupId)
    requires WellFormed(p) && gid < |p.groups| && p.groups[gid].cancelled
    ensures DeletedGroupIdle(p, Run(p, ops), gid)
    decreases |ops|
  {
    if ops != [] {
      var p1 := Apply(p, ops[0]);
      ApplyKeepsDeletedGroupIdle(p, ops[0], gid);
      DeletedGroupGrantsNothing(p1, ops[1..], gid);
      var q := Run(p, ops);
      assert q == Run(p1, ops[1..]);
      forall i | 0 <= i < |p.grants|
        ensures q.grants[i].lease == p.grants[i].lease
      {
        assert q.grants[i].lease == p1.grants[i].lease;
      }
      forall i | |p.grants| <= i < |q.grants|
        ensures q.grants[i].lease.group != gid
      {
        if i < |p1.grants| {
          assert q.grants[i].lease == p1.grants[i].lease;
        }
      }
    }
  }

  /** `Set(k, 0)` on a registered key unregisters and cancels its group, so
      the corrected loop of that group grants nothing afterwards. */
  lemma SetZeroHaltsGroup(p: Pool, k: Key)
    requires WellFormed(p) && k in p.registry
    ensures var q := Set(p, k, 0);
      && k !in q.registry
      && q.groups[p.registry[k]].cancelled
      && RunStep(q, p.registry[k], Granted).None?
  {
  }

  // ---------------------------------------------------------------------
  // Scenarios

  /** Deleting a key while one of its leases is out: the key reports zero
      counts, and releasing the old lease neither fails nor brings the
      group back. */
  lemma DeleteThenReleaseScenario()
    ensures
      var p1 := Set(NewPool(), "a", 1);
      var p2 := RunStep(p1, 0, Granted);
      && p2.Some?
      && Get(p2.value, "a") == Counts(1, 1)
      && var p3 := Set(p2.value, "a", 0);
      && Get(p3, "a") == Counts(0, 0)
      && var p4 := Release(p3, 0);
      && Get(p4, "a") == Counts(0, 0)
      && "a" !in p4.registry
      && p4.groups[0].counts.active == 0
  {
  }

  /** A target of two admits two leases and then blocks the next grant. */
  lemma TargetTwoScenario()
    ensures
      var p1 := Set(NewPool(), "a", 2);
      var p2 := RunStep(p1, 0, Granted);
      && p2.Some?
      && var p3 := RunStep(p2.value, 0, Granted);
      && p3.Some?
      && Get(p3.value, "a") == Counts(2, 2)
      && RunStep(p3.value, 0, Granted).None?
      && p3.value.grants[0].lease.id == 1 && p3.value.grants[1].lease.id == 2
  {
    var p1 := Set(NewPool(), "a", 2);
    assert p1.groups == [Group("a", Counts(2, 0), false, false, false, None)];
    assert p1.registry == map["a" := 0] && p1.leaseIds == 0 && !p1.stopped;
    var p2 := RunStep(p1, 0, Granted).value;
    assert p2.groups[0].counts == Counts(2, 1) && p2.leaseIds == 1;
    assert p2.grants == [Grant(Lease(1, "a", 0), false)];
    var p3 := RunStep(p2, 0, Granted).value;
    assert p3.groups[0].counts == Counts(2, 2) && p3.registry == p1.registry;
  }

  /** The pool after setting "a" and then "b" to one. */
  lemma TwoKeysPool()
    ensures var p := Set(Set(NewPool(), "a", 1), "b", 1);
      && p.groups == [Group("a", Counts(1, 0), false, false, false, None),
                      Group("b", Counts(1, 0), false, false, false, None)]
      && p.registry == map["a" := 0, "b" := 1]
      && p.grants == [] && !p.stopped
  {
    var p1 := Set(NewPool(), "a", 1);
    assert p1.groups == [Group("a", Counts(1, 0), false, false, false, None)];
    assert p1.registry == map["a" := 0] && p1.grants == [] && !p1.stopped;
  }

  /** Two live groups below target: either can grant first, and the other
      can still grant afterwards. */
  lemma TwoGroupsBothServed(p: Pool)
    requires p.groups == [Group("a", Counts(1, 0), false, false, false, None),
                          Group("b", Counts(1, 0), false, false, false, None)]
    requires p.registry == map["a" := 0, "b" := 1] && p.grants == [] && !p.stopped
    ensures WellFormed(p)
    ensures RunStep(p, 0, Granted).Some? && RunStep(p, 1, Granted).Some?
    ensures var q := RunStep(RunStep(p, 0, Granted).value, 1, Granted);
      && q.Some?
      && Get(q.value, "a") == Counts(1, 1) && Get(q.value, "b") == Counts(1, 1)
  {
    var p2 := RunStep(p, 0, Granted).value;
    assert p2.groups[1] == p.groups[1] && p2.registry == p.registry && !p2.stopped;
    var p3 := RunStep(p2, 1, Granted).value;
    assert p3.groups[0] == p2.groups[0] && p3.registry == p.registry;
  }

  /** Two keys with target one each: each group's loop can serve its own
      key, whichever goes first, so neither key is starved. */
  lemma TwoKeysBothServed()
    ensures
      var p := Set(Set(NewPool(), "a", 1), "b", 1);
      && RunStep(p, 0, Granted).Some?
      && RunStep(p, 1, Granted).Some?
      && var q := RunStep(RunStep(p, 0, Granted).value, 1, Granted);
      && q.Some?
      && Get(q.value, "a") == Counts(1, 1) && Get(q.value, "b") == Counts(1, 1)
  {
    TwoKeysPool();
    TwoGroupsBothServed(Set(Set(NewPool(), "a", 1), "b", 1));
  }

  /** The loop as written can hand out a lease after the pool was stopped:
      its select chooses between the ready send and the ready done case at
      random.  The corrected step refuses. */
  lemma AsWrittenGrantsAfterStop()
    ensures
      var p := Stop(Set(NewPool(), "a", 1));
      && RunStep(p, 0, Granted).None?
      && RunStepAsWritten(p, 0, Granted).Some?
      && |RunStepAsWritten(p, 0, Granted).value.grants| == 1
  {
  }

  /** Likewise after `Set(k, 0)`: the loop as written can still hand out a
      lease of the deleted group, which the corrected step refuses. */
  lemma AsWrittenGrantsAfterDelete()
    ensures
      var q := Set(Set(NewPool(), "a", 1), "a", 0);
      && RunStep(q, 0, Granted).None?
      && RunStepAsWritten(q, 0, Granted).Some?
      && RunStepAsWritten(q, 0, Granted).value.grants[0].lease.group == 0
  {
    var p1 := Set(NewPool(), "a", 1);
    assert p1.groups == [Group("a", Counts(1, 0), false, false, false, None)];
    assert p1.registry == map["a" := 0];
    var q := Set(p1, "a", 0);
    assert q.groups == [Group("a", Counts(1, 0), false, true, false, None)];
  }
}
